=== FILE: README.md ===
# ZodiacSignsApp subscription workflow in Dafny

The page takes a birth date, computes its zodiac sign, shows the reading for
that sign from the readings service, and then collects a name and an email
address to register a newsletter subscriber. Before it registers anyone, it
asks the service whether the address already has an account. This project
models the decision logic of that page, which lives in the handlers of
`src/App.js`:

- `strings.dfy` (module `Strings`) covers JavaScript's whitespace class,
  `toLowerCase`/`toUpperCase` on ASCII, `trim`, and `capitalize`.
- `email.dfy` (module `Email`) covers `validateEmail`. The regular expression
  `^[^\s@]+@[^\s@]+\.[^\s@]+$` is written once as the concatenation it
  describes (`MatchesPattern`) and once as a direct check (`ValidateEmail`),
  and a lemma proves the two agree.
- `readings.dfy` (module `Readings`) covers the JSON shape of the readings
  body and the guard of the reading paragraph.
- `workflow.dfy` (module `Workflow`) holds the state machine. The state is
  the record of the page's ten `useState` variables. Each handler is one
  atomic function. It takes the network's replies as arguments and returns
  a `Reaction`: the new state, the calls made (each with the reply it got)
  and the alerts raised.
- `properties.dfy` (module `WorkflowProperties`) holds the session-level
  facts: a state invariant, the order of calls in the log, and scenarios.
- `stores.dfy` (module `ReadingsStores`) relates the two places that store
  the readings body. The mount effect (line 28) stores the body as it comes.
  The Check handler (line 52) stores `[data]`, one array deeper. So an array
  body can show a reading only after mounting, a record body only after
  Check, and no body shows one after both.

## Model

| member | source | states |
|---|---|---|
| `Strings.ToLower` | src/App.js:108 | lower-cases ASCII capitals and leaves every other character alone; whitespace stays whitespace, and upper-casing the result gives back the capital |
| `Strings.ToUpper` | src/App.js:109 | upper-cases ASCII small letters, each to the capital 32 code points below it, and leaves every other character alone; whitespace stays whitespace |
| `Strings.LowerUndoesUpper` | src/App.js:108-109 | lowering an upper-cased small letter gives the letter back |
| `Strings.UpperWordStarts` | src/App.js:108-110 | the left-to-right scan of the global replace at line 108 upper-cases exactly the non-whitespace characters at the start or after whitespace; it keeps the length and changes nothing else |
| `Strings.Capitalize` | src/App.js:107-111 | `capitalize` keeps the length and the whitespace positions; a word-initial character comes out lowered then raised, every other character comes out lowered |
| `Strings.CapitalizeIdempotent` | src/App.js:107-111 | capitalising an already capitalised string changes nothing |
| `Strings.CapitalizeCase` | src/App.js:107-111 | no capital is left outside word starts, and no small letter is left at a word start |
| `Strings.CapitalizeJaneDoe` | src/App.js:107-111 | `capitalize("jane doe")` is `"Jane Doe"` |
| `Strings.TrimStart` | src/App.js:61 | drops exactly the leading whitespace: the result is a suffix, everything dropped is whitespace, and the result does not start with whitespace |
| `Strings.TrimEnd` | src/App.js:61 | drops exactly the trailing whitespace, symmetrically |
| `Strings.Trim` | src/App.js:61 | `trim()` gives a slice of the name with only whitespace around it, which neither starts nor ends with whitespace |
| `Strings.BlankIffAllWhitespace` | src/App.js:61 | `name.trim() === ''` holds exactly when every character of the name is whitespace |
| `Email.ValidateEmail` | src/App.js:113-116 | `validateEmail` as a direct check: no whitespace, exactly one `@`, a non-empty part before it and a dot strictly inside the part after it; `Email.ValidateEmailIffPattern` proves it accepts exactly what the regular expression accepts |
| `Email.ValidateEmailMatches` | src/App.js:113-116 | every address the direct check accepts splits as plain run, `@`, plain run, `.`, plain run |
| `Email.MatchesValidateEmail` | src/App.js:113-116 | every string of that shape has no whitespace, exactly one `@`, a non-empty local part and a dot strictly inside the domain |
| `Email.ValidateEmailIffPattern` | src/App.js:114 | the direct check and the regular expression accept the same strings |
| `Email.RejectsNotAnEmail` | src/App.js:113-116 | `"not-an-email"` is rejected |
| `Email.RejectsTwoAts` | src/App.js:114 | a second `@` is rejected |
| `Email.RejectsTrailingDot` | src/App.js:114 | `"a@b."`, whose only dot ends the domain, is rejected |
| `Email.RejectsNoInnerDot` | src/App.js:114 | an address with a single `@` and no dot after it, except possibly as its last character, is rejected |
| `Email.AcceptsPlainAddress` | src/App.js:114 | `"jane@example.com"` is accepted |
| `Readings.ShowsReading` | src/App.js:143 | the reading shows exactly when the sign is non-empty, the readings are an array with a first element, and that element is a record with a non-empty text for the sign |
| `Readings.LeoShownVirgoNot` | src/App.js:143-145 | with readings `[{Leo: "text"}]`, Leo shows "text" and Virgo shows nothing |
| `Readings.NoSignNoReading` | src/App.js:143 | before a sign is computed nothing shows, whatever was fetched |
| `Workflow.Initial` | src/App.js:6-15 | the `useState` defaults: empty readings array, empty strings, loading on, every other flag off; `WorkflowProperties.InitialConsistent` proves it satisfies the state invariant |
| `Workflow.ValidateDob` | src/App.js:34-36 | `validateDob` accepts exactly the non-empty date values; `Workflow.EditDate` and `WorkflowProperties.CheckNeverAlertsFromButton` state what it gates |
| `Workflow.Load` | src/App.js:24-32 | the mount effect makes one readings call; a body is stored as it came and ends loading, a failure leaves the page loading; nothing else changes |
| `Workflow.EditDate` | src/App.js:125-128 | the date edit stores the value and enables Check exactly when the value is non-empty (`validateDob`, lines 34-36); nothing else changes and no call is made |
| `Workflow.PressCheck` | src/App.js:132-138 | the Check click runs the handler only while Check is enabled and loading is over; otherwise nothing happens; any call it makes had a date behind it |
| `Workflow.HandleSubscribeClick` | src/App.js:38-57 | an empty date alerts and changes nothing; otherwise the sign becomes `classify(dob)`, one readings call is made, the form opens whether or not that call succeeded, and a fetched body is stored wrapped in a one-element array (`[data]`); a failed call keeps the old readings |
| `Workflow.EditName` | src/App.js:160 | the name edit stores the value and changes nothing else |
| `Workflow.HandleEmailChange` | src/App.js:17-22 | a duplicate report is withdrawn together with the success message; without a duplicate report nothing changes |
| `Workflow.EditEmail` | src/App.js:167-170 | the email edit stores the value, then clears both flags only if a duplicate was reported; otherwise only the address changes |
| `Workflow.Payload` | src/App.js:91-95 | the registration body: the capitalised name, the address and the computed sign; `Strings.Capitalize` states what the name becomes and `WorkflowProperties.JaneDoeRegistered` shows `"jane doe"` sent as `"Jane Doe"` |
| `Workflow.CheckThenRegister` | src/App.js:69-105 | first call is `checkUser` for the address. A failed check changes nothing. A truthy `exists` sets the duplicate flag, clears success and sends no registration. Otherwise (a falsy `exists`, whatever the status) the duplicate flag is cleared and the registration `{capitalize(name), email, sign}` is sent; success turns on only when the post is accepted, and a rejected or failed post leaves it as it was |
| `Workflow.HandleSubscribeFormSubmit` | src/App.js:59-68 | a blank trimmed name alerts first, even when the address is also bad; a bad address alerts next; either way the state is unchanged and no call is made. Only a valid form reaches `checkUser`, so the log's ordering and address facts hold |
| `Workflow.Step` | src/App.js:149-176 | name, email and Sign up events do nothing before the form is shown. In every step's log a registration directly follows a check for the same address whose reply had no truthy `exists`, and every checked address is valid. Success turns on only with an accepted post. The form never closes and loading never restarts |
| `WorkflowProperties.InitialConsistent` | src/App.js:6-15 | the freshly mounted page satisfies the state invariant |
| `WorkflowProperties.StepPreservesConsistent` | src/App.js:17-128 | every transition keeps the invariant: Check is enabled exactly when a date is entered; duplicate and success are never both set; nothing of the form is set before it opens |
| `WorkflowProperties.RunPreservesConsistent` | src/App.js:17-128 | the invariant survives any sequence of events |
| `WorkflowProperties.ReachableConsistent` | src/App.js:6-15 | every state reachable from mounting satisfies the invariant |
| `WorkflowProperties.CheckNeverAlertsFromButton` | src/App.js:39-42 | in a consistent state an enabled Check button always has a date, so the handler's own date alert never fires |
| `WorkflowProperties.RunPostsFollowNotFound` | src/App.js:70-79 | across a whole session, every registration is sent right after a `checkUser` for the same address whose parsed reply had no truthy `exists`, whatever its status |
| `WorkflowProperties.RunChecksValidAddresses` | src/App.js:65-70 | across a whole session, `checkUser` is only asked about addresses the form accepted |
| `WorkflowProperties.RunSuccessNeedsAcceptedPost` | src/App.js:78-79 | if a session ends with the success message, the service accepted some registration during it |
| `WorkflowProperties.RunKeepsFormOpen` | src/App.js:56 | once opened, the form stays open |
| `WorkflowProperties.ExistingAccountReported` | src/App.js:70-76 | with the form valid, an answer that the account exists sets the duplicate report, clears success, keeps the form open, and logs only the check call |
| `WorkflowProperties.EmailEditClearsReports` | src/App.js:17-22 | an address edit in the open form stores the address and calls nothing; it clears both reports when the duplicate report was showing and otherwise changes nothing else |
| `WorkflowProperties.DuplicateThenEditEmail` | src/App.js:72-76 | an existing account is reported with only the check call in the log and no registration; editing the address afterwards clears the report |
| `WorkflowProperties.RejectedPostNoSuccess` | src/App.js:98-101 | a non-ok registration reply leaves the success message off, after the check call and the post |
| `WorkflowProperties.JaneDoeRegistered` | src/App.js:91-95 | the name "jane doe" is registered as "Jane Doe", with the form's address and sign |
| `ReadingsStores.MountShowsIffArrayBody` | src/App.js:24-32 | after mounting, the reading for a sign shows exactly when the body is an array whose first element is a record with a non-empty text for the sign, and that text is what shows (lines 143-145) |
| `ReadingsStores.CheckShowsIffRecordBody` | src/App.js:46-52 | after Check with a fetched body, the reading shows exactly when the body itself is a record with a non-empty text for the computed sign, and that text is what shows (lines 143-145) |
| `ReadingsStores.MountAndCheckNeverBothShow` | src/App.js:28 | whatever object or array body of strings the endpoint answers, the body stored at line 28 and the `[data]` stored at line 52 never both show a reading for the same sign |
| `ReadingsStores.ArrayBodyShowsOnlyAfterMount` | src/App.js:52 | the answer `[{"Leo": "text"}]` shows "text" after mounting and nothing after Check for a Leo date |
| `ReadingsStores.RecordBodyShowsOnlyAfterCheck` | src/App.js:52 | the answer `{"Leo": "text"}` shows nothing after mounting and "text" after Check for a Leo date |

## Left out

- Network transport, `fetch`, `response.json()` and `JSON.stringify` are not modelled. Each reply is a field of the event that triggers the call: `FetchReply`, `CheckReply` or `PostReply`.
- A 2xx registration reply whose body cannot be parsed (line 103) is folded into `PostReply.Unreachable`. Like a transport failure, it leaves the success flag unchanged.
- The `checkUser` reply's status is never read (lines 70-72), and the model follows that. `Exists` and `NotExists` stand for a truthy and a falsy `exists` in the parsed body, whatever the status. So an error reply such as a 500 with `{"error": "..."}` is `NotExists`, and a registration is sent after it (line 78). `CheckFailed` covers a failed request, an unparsable body and a `null` body.
- `Readings.ShowsReading`: only object and array bodies are modelled. A readings body of `null`, a number or a string cannot be stored. With such a body, the lookup at line 143 can throw at render time (`[null][0][sign]`, or `null.length` after a failed re-fetch), and that is not modelled.
- `calculateZodiacSign` comes from `./utils/zodiacUtils`, which is not part of this model. It is a `Classifier` parameter, and no sign table is assumed.
- `alert` is modelled as the `Alert` values a handler returns. `console.log` and `console.error` are output only and are left out.
- JSX rendering and styling are left out. Only two pieces of it are logic and are modelled: the reading guard at line 143, and the Check button gate at lines 133-138. Showing the form fields at line 149 is modelled as a gate on the form events.
- React's asynchronous state updates, batching and awaiting are left out. Each handler is one atomic transition, so interleavings are not modelled. Examples: a second Sign up click while the first is still awaiting a reply, or a reply arriving after later edits.
- The mount effect is an ordinary `Loaded` event that may occur any number of times. The real page runs it once, so every safety fact proved here also covers the real sessions.
- `Strings.ToLower`: maps only ASCII letters. JavaScript's full Unicode case mapping is not modelled. That mapping can change a string's length (`"ß".toUpperCase()` is `"SS"`), which would break the length facts of `Capitalize`.
- `Strings.ToUpper`: maps only ASCII letters, for the same reason.
- `Readings.Property`: only a record's own entries are looked up, and indexing an array by a sign name always gives `undefined`. Inherited property names are not modelled. On a record these are `constructor`, `toString`, `__proto__` and so on; on an array they include `map`, `at` and `length`, and decimal indices are not modelled either. All of these give truthy values in JavaScript, and `classify` is not constrained to avoid them.
- `Readings.ShowsReading`: a record's own `length` entry and non-string values inside the readings record are not modelled.
- The address goes into the `checkUser` query without URL encoding (line 70). The log records the raw address, so how the service decodes characters such as `+` or `&` is not modelled.
- The date input's own format (`type="date"`) is not modelled. Any string is accepted as a date value.
- Form submission by the Enter key, and the Check button's default `submit` type, are not modelled.

=== FILE: email.dfy ===
/**
 The address check of the subscription form: the pattern
 `^[^\s@]+@[^\s@]+\.[^\s@]+$`, written once as the concatenation the pattern
 describes and once as the direct check the form performs, and proved equal.
 */
module Email {
  import opened Strings

  /** A character of the class `[^\s@]`. */
  predicate Plain(c: char) {
    c != '@' && !IsWhitespace(c)
  }

  /** A non-empty run of `[^\s@]`, that is `[^\s@]+`. */
  predicate PlainRun(t: string) {
    |t| > 0 && forall i :: 0 <= i < |t| ==> Plain(t[i])
  }

  /** The whole string matches the anchored pattern: a plain run, `@`, a plain
      run, `.`, a plain run (the middle run may itself contain dots). */
  ghost predicate MatchesPattern(s: string) {
    exists local, host, tld :: PlainRun(local) && PlainRun(host) && PlainRun(tld)
      && s == local + ['@'] + host + ['.'] + tld
  }

  predicate NoWhitespace(s: string) {
    forall i :: 0 <= i < |s| ==> !IsWhitespace(s[i])
  }

  /** The domain has a dot that is neither its first nor its last character. */
  predicate DotInside(domain: string) {
    exists k :: 0 < k < |domain| - 1 && domain[k] == '.'
  }

  /** `validateEmail(email)`: no whitespace, exactly one `@`, a non-empty part
      before it, and a dot strictly inside the part after it. */
  predicate ValidateEmail(s: string) {
    && NoWhitespace(s)
    && multiset(s)['@'] == 1
    && exists a :: 0 < a < |s| && s[a] == '@' && DotInside(s[a + 1..])
  }

  /** With exactly one `@` in `s`, found at `a`, no other position holds `@`. */
  lemma SingleAt(s: string, a: int)
    requires 0 <= a < |s| && s[a] == '@' && multiset(s)['@'] == 1
    ensures forall i :: 0 <= i < |s| && i != a ==> s[i] != '@'
  {
    assert s == s[..a] + [s[a]] + s[a + 1..];
    assert multiset(s) == multiset(s[..a]) + multiset{s[a]} + multiset(s[a + 1..]);
    forall i | 0 <= i < |s| && i != a
      ensures s[i] != '@'
    {
      if i < a {
        assert s[i] in multiset(s[..a]);
      } else {
        assert s[i] == s[a + 1..][i - a - 1];
        assert s[i] in multiset(s[a + 1..]);
      }
    }
  }

  /** A non-empty slice of plain characters is a plain run. */
  lemma PlainSlice(s: string, lo: int, hi: int)
    requires 0 <= lo < hi <= |s|
    requires forall i :: lo <= i < hi ==> Plain(s[i])
    ensures PlainRun(s[lo..hi])
  {
    assert forall i :: 0 <= i < hi - lo ==> s[lo..hi][i] == s[lo + i];
  }

  /** An `@` at `a` and a dot at `d`, with plain characters everywhere else
      and at least one character between and around them, match the pattern. */
  lemma Assemble(s: string, a: int, d: int)
    requires 0 < a && a + 1 < d < |s| - 1 && s[a] == '@' && s[d] == '.'
    requires forall i :: 0 <= i < |s| && i != a && i != d ==> Plain(s[i])
    ensures MatchesPattern(s)
  {
    var local, host, tld := s[0..a], s[a + 1..d], s[d + 1..|s|];
    assert PlainRun(local) && PlainRun(host) && PlainRun(tld) by {
      PlainSlice(s, 0, a);
      PlainSlice(s, a + 1, d);
      PlainSlice(s, d + 1, |s|);
    }
    SplitAround(s, a, d);
  }

  lemma {:induction false} ValidateEmailMatches(s: string)
    requires ValidateEmail(s)
    ensures MatchesPattern(s)
  {
    var a :| 0 < a < |s| && s[a] == '@' && DotInside(s[a + 1..]);
    var k :| 0 < k < |s[a + 1..]| - 1 && s[a + 1..][k] == '.';
    var d := a + 1 + k;
    assert s[d] == '.';
    SingleAt(s, a);
    Assemble(s, a, d);
  }

  /** Cutting `s` at two positions and gluing the five pieces back gives `s`. */
  lemma SplitAround(s: string, a: int, d: int)
    requires 0 <= a < d < |s|
    ensures s == s[0..a] + [s[a]] + s[a + 1..d] + [s[d]] + s[d + 1..|s|]
  {
    assert s[d..] == [s[d]] + s[d + 1..];
    assert s[a + 1..] == s[a + 1..d] + s[d..];
    assert s[a..] == [s[a]] + s[a + 1..];
    assert s == s[..a] + s[a..];
  }

  /** Three plain runs joined by `@` and `.` have no whitespace and a single `@`. */
  lemma JoinedParts(local: string, host: string, tld: string)
    requires PlainRun(local) && PlainRun(host) && PlainRun(tld)
    ensures var s := local + ['@'] + host + ['.'] + tld;
      NoWhitespace(s) && multiset(s)['@'] == 1
  {
    var s := local + ['@'] + host + ['.'] + tld;
    var a := |local|;
    assert '@' !in local && '@' !in host && '@' !in tld by {
      assert forall i :: 0 <= i < |local| ==> local[i] != '@';
      assert forall i :: 0 <= i < |host| ==> host[i] != '@';
      assert forall i :: 0 <= i < |tld| ==> tld[i] != '@';
    }
    assert multiset(s) == multiset(local) + multiset{'@'} + multiset(host) + multiset{'.'} + multiset(tld);
    forall i | 0 <= i < |s|
      ensures !IsWhitespace(s[i])
    {
      if i < a {
        assert s[i] == local[i];
      } else if a < i < a + 1 + |host| {
        assert s[i] == host[i - a - 1];
      } else if a + 1 + |host| < i {
        assert s[i] == tld[i - a - 2 - |host|];
      }
    }
  }

  lemma {:induction false} MatchesValidateEmail(s: string)
    requires MatchesPattern(s)
    ensures ValidateEmail(s)
  {
    var local, host, tld :| PlainRun(local) && PlainRun(host) && PlainRun(tld)
      && s == local + ['@'] + host + ['.'] + tld;
    JoinedParts(local, host, tld);
    var a := |local|;
    assert s[a] == '@';
    var domain := s[a + 1..];
    assert domain == host + ['.'] + tld;
    assert domain[|host|] == '.';
  }

  /** The form's check accepts exactly the strings the pattern matches. */
  lemma ValidateEmailIffPattern(s: string)
    ensures ValidateEmail(s) <==> MatchesPattern(s)
  {
    if ValidateEmail(s) {
      ValidateEmailMatches(s);
    }
    if MatchesPattern(s) {
      MatchesValidateEmail(s);
    }
  }

  /** The example the form rejects: there is no `@` at all. */
  lemma RejectsNotAnEmail()
    ensures !ValidateEmail("not-an-email")
  {
    var bad := "not-an-email";
    assert forall i :: 0 <= i < |bad| ==> bad[i] != '@';
  }

  /** A second `@` is rejected even where everything else fits. */
  lemma RejectsTwoAts()
    ensures !ValidateEmail("a@@b.c")
  {
    var twice := "a@@b.c";
    assert twice == "a" + ['@'] + "@b.c";
    assert multiset(twice) == multiset("a") + multiset{'@'} + multiset("@b.c");
    assert '@' in multiset("@b.c");
  }

  /** `a@b.`, whose only dot ends the domain, is rejected. */
  lemma RejectsTrailingDot()
    ensures !ValidateEmail("a@b.")
  {
  }

  /** With its single `@` at `a`, an address that has no dot after the `@`
      except possibly as its last character is rejected. */
  lemma {:induction false} RejectsNoInnerDot(s: string, a: int)
    requires 0 <= a < |s| && s[a] == '@' && multiset(s)['@'] == 1
    requires forall i :: a < i < |s| - 1 ==> s[i] != '.'
    ensures !ValidateEmail(s)
  {
    SingleAt(s, a);
  }

  lemma AcceptsPlainAddress()
    ensures ValidateEmail("jane@example.com")
  {
    var good := "jane@example.com";
    assert good == "jane" + ['@'] + "example" + ['.'] + "com";
    assert PlainRun("jane") && PlainRun("example") && PlainRun("com");
    MatchesValidateEmail(good);
  }
}

=== FILE: properties.dfy ===
/**
 What holds of every session of the workflow: the state invariant that rules
 out contradictory flags, the order of the network calls, and the scenarios
 the page is meant to support.
 */
module WorkflowProperties {
  import opened Strings
  import opened Email
  import opened Workflow

  /** The flags never contradict each other: Check is enabled exactly when a
      date is entered, "duplicate" and "subscribed" are never shown together,
      and nothing of the form is set before the form is opened. */
  predicate Consistent(s: State) {
    && s.isSubscribeButtonEnabled == ValidateDob(s.dob)
    && !(s.existingUser && s.subscriptionSuccess)
    && (!s.showSubscribeForm ==>
          && s.calculatedZodiacSign == "" && s.name == "" && s.email == ""
          && !s.existingUser && !s.subscriptionSuccess)
  }

  lemma InitialConsistent()
    ensures Consistent(Initial())
  {
  }

  lemma StepPreservesConsistent(s: State, e: Event, classify: Classifier)
    requires Consistent(s)
    ensures Consistent(Step(s, e, classify).state)
  {
    match e
    case SignUpPressed(check, post) =>
      if s.showSubscribeForm && FormValid(s) {
        var r := CheckThenRegister(s, check, post);
        assert Consistent(r.state);
      }
    case _ =>
  }

  lemma {:induction false} RunPreservesConsistent(s: State, events: seq<Event>, classify: Classifier)
    requires Consistent(s)
    ensures Consistent(Run(s, events, classify).state)
    decreases |events|
  {
    if |events| > 0 {
      StepPreservesConsistent(s, events[0], classify);
      RunPreservesConsistent(Step(s, events[0], classify).state, events[1..], classify);
    }
  }

  /** Every state the page can reach from mounting is consistent. */
  lemma ReachableConsistent(events: seq<Event>, classify: Classifier)
    ensures Consistent(Run(Initial(), events, classify).state)
  {
    RunPreservesConsistent(Initial(), events, classify);
  }

  /** In a consistent state an enabled Check button always has a date behind
      it, so the handler's own date check never alerts. */
  lemma CheckNeverAlertsFromButton(s: State, reply: FetchReply, classify: Classifier)
    requires Consistent(s)
    ensures Step(s, CheckPressed(reply), classify).alerts == []
  {
  }

  lemma PostsFollowNotFoundConcat(a: seq<Call>, b: seq<Call>)
    requires PostsFollowNotFound(a) && PostsFollowNotFound(b)
    ensures PostsFollowNotFound(a + b)
  {
    var c := a + b;
    forall i | 0 <= i < |c| && c[i].SubscribeNewsletter?
      ensures 0 < i && c[i - 1] == CheckUser(c[i].payload.email, NotExists)
    {
      if i >= |a| {
        assert c[i] == b[i - |a|];
        assert i - |a| > 0;
        assert c[i - 1] == b[i - |a| - 1];
      }
    }
  }

  /** Across a whole session, a registration is only ever sent right after a
      `checkUser` for the same address whose parsed reply had no truthy
      `exists`, whatever its status. */
  lemma {:induction false} RunPostsFollowNotFound(s: State, events: seq<Event>, classify: Classifier)
    ensures PostsFollowNotFound(Run(s, events, classify).calls)
    decreases |events|
  {
    if |events| > 0 {
      var first := Step(s, events[0], classify);
      RunPostsFollowNotFound(first.state, events[1..], classify);
      PostsFollowNotFoundConcat(first.calls, Run(first.state, events[1..], classify).calls);
    }
  }

  /** Across a whole session, only addresses the form accepted reach the network. */
  lemma {:induction false} RunChecksValidAddresses(s: State, events: seq<Event>, classify: Classifier)
    ensures ChecksValidAddresses(Run(s, events, classify).calls)
    decreases |events|
  {
    if |events| > 0 {
      var first := Step(s, events[0], classify);
      var rest := Run(first.state, events[1..], classify);
      RunChecksValidAddresses(first.state, events[1..], classify);
      var c := first.calls + rest.calls;
      assert forall i :: |first.calls| <= i < |c| ==> c[i] == rest.calls[i - |first.calls|];
    }
  }

  /** The success message can only appear in a session that had a registration
      accepted by the service. */
  lemma {:induction false} RunSuccessNeedsAcceptedPost(s: State, events: seq<Event>, classify: Classifier)
    requires !s.subscriptionSuccess
    ensures Run(s, events, classify).state.subscriptionSuccess ==> AcceptedPostIn(Run(s, events, classify).calls)
    decreases |events|
  {
    if |events| > 0 {
      var first := Step(s, events[0], classify);
      var rest := Run(first.state, events[1..], classify);
      var c := first.calls + rest.calls;
      if first.state.subscriptionSuccess {
        var i :| 0 <= i < |first.calls| && first.calls[i].SubscribeNewsletter? && first.calls[i].outcome == Accepted;
        assert c[i] == first.calls[i];
      } else {
        RunSuccessNeedsAcceptedPost(first.state, events[1..], classify);
        if rest.state.subscriptionSuccess {
          var i :| 0 <= i < |rest.calls| && rest.calls[i].SubscribeNewsletter? && rest.calls[i].outcome == Accepted;
          assert c[|first.calls| + i] == rest.calls[i];
        }
      }
    }
  }

  /** Once opened, the subscription form stays open for the rest of the session. */
  lemma {:induction false} RunKeepsFormOpen(s: State, events: seq<Event>, classify: Classifier)
    requires s.showSubscribeForm
    ensures Run(s, events, classify).state.showSubscribeForm
    decreases |events|
  {
    if |events| > 0 {
      RunKeepsFormOpen(Step(s, events[0], classify).state, events[1..], classify);
    }
  }

  /** A session of one event is that event's step. */
  lemma RunOne(s: State, e: Event, classify: Classifier)
    ensures Run(s, [e], classify).state == Step(s, e, classify).state
    ensures Run(s, [e], classify).calls == Step(s, e, classify).calls
  {
    assert [e][1..] == [];
    var first := Step(s, e, classify);
    assert Run(first.state, [], classify) == Quiet(first.state);
  }

  /** A session of two events is the second step run after the first. */
  lemma RunTwo(s: State, e1: Event, e2: Event, classify: Classifier)
    ensures var first := Step(s, e1, classify);
      var second := Step(first.state, e2, classify);
      var r := Run(s, [e1, e2], classify);
      r.state == second.state && r.calls == first.calls + second.calls
  {
    var first := Step(s, e1, classify);
    assert [e1, e2][1..] == [e2];
    RunOne(first.state, e2, classify);
  }

  /** An account that already exists is reported and nothing is registered. */
  lemma ExistingAccountReported(s: State, post: PostReply, classify: Classifier)
    requires s.showSubscribeForm && FormValid(s)
    ensures var r := Step(s, SignUpPressed(Exists, post), classify);
      && r.calls == [CheckUser(s.email, Exists)]
      && r.state.existingUser && !r.state.subscriptionSuccess && r.state.showSubscribeForm
  {
    assert Step(s, SignUpPressed(Exists, post), classify) == HandleSubscribeFormSubmit(s, Exists, post);
  }

  /** Editing the address in the open form calls nothing; it withdraws both
      reports when the duplicate report was showing, and otherwise only
      stores the address. */
  lemma EmailEditClearsReports(s: State, address: string, classify: Classifier)
    requires s.showSubscribeForm
    ensures var r := Step(s, EmailEdited(address), classify);
      && r.calls == [] && r.alerts == [] && r.state.email == address
      && (s.existingUser ==> !r.state.existingUser && !r.state.subscriptionSuccess)
      && (!s.existingUser ==> r.state == s.(email := address))
  {
  }

  /** An account that already exists is reported without a registration, and
      editing the address afterwards withdraws the report. */
  lemma DuplicateThenEditEmail(s: State, post: PostReply, address: string, classify: Classifier)
    requires s.showSubscribeForm && FormValid(s)
    ensures var r := Run(s, [SignUpPressed(Exists, post), EmailEdited(address)], classify);
      && r.calls == [CheckUser(s.email, Exists)]
      && Step(s, SignUpPressed(Exists, post), classify).state.existingUser
      && !r.state.existingUser && !r.state.subscriptionSuccess && r.state.email == address
  {
    var first := Step(s, SignUpPressed(Exists, post), classify);
    ExistingAccountReported(s, post, classify);
    EmailEditClearsReports(first.state, address, classify);
    RunTwo(s, SignUpPressed(Exists, post), EmailEdited(address), classify);
  }

  /** A rejected registration (a 500, say) leaves the success message off. */
  lemma RejectedPostNoSuccess(s: State, classify: Classifier)
    requires s.showSubscribeForm && FormValid(s) && !s.subscriptionSuccess
    ensures var r := Step(s, SignUpPressed(NotExists, Rejected), classify);
      && r.calls == [CheckUser(s.email, NotExists), SubscribeNewsletter(Payload(s), Rejected)]
      && !r.state.subscriptionSuccess && !r.state.existingUser
  {
    assert Step(s, SignUpPressed(NotExists, Rejected), classify) == CheckThenRegister(s, NotExists, Rejected);
  }

  /** The registration for "jane doe" carries the name "Jane Doe". */
  lemma JaneDoeRegistered(s: State)
    requires s.name == "jane doe" && ValidateEmail(s.email)
    ensures var r := HandleSubscribeFormSubmit(s, NotExists, Accepted);
      && |r.calls| == 2
      && r.calls[1] == SubscribeNewsletter(Subscriber("Jane Doe", s.email, s.calculatedZodiacSign), Accepted)
      && r.state.subscriptionSuccess
  {
    assert !IsBlank(s.name) by {
      BlankIffAllWhitespace(s.name);
      assert !IsWhitespace(s.name[0]);
    }
    assert Payload(s) == Subscriber("Jane Doe", s.email, s.calculatedZodiacSign) by {
      CapitalizeJaneDoe();
    }
  }
}

=== FILE: readings.dfy ===
/**
 The readings the page shows. The body of `GET /readings` is JSON: an array
 holding one record that maps each sign name to its reading text. The page
 keeps whatever body it stored and, at render time, shows `readings[0][sign]`
 when the guard of the reading paragraph lets it.
 */
module Readings {

  /** The JSON shapes the readings endpoint deals in: a record of texts, or an
      array of such values. */
  datatype Json = Record(texts: map<string, string>) | List(items: seq<Json>)

  /** The value a JavaScript property access produces: a string, or `undefined`. */
  datatype Lookup = Missing | Found(text: string)

  /** `value[key]` for a sign name as key: a record's own entry for the key,
      and `undefined` otherwise. Names a JavaScript object or array inherits
      (`constructor`, `toString`, `map`, ...) are not looked up. */
  function Property(value: Json, key: string): (l: Lookup)
    ensures l.Found? <==> value.Record? && key in value.texts
    ensures l.Found? ==> l.text == value.texts[key]
  {
    match value
    case Record(texts) => if key in texts then Found(texts[key]) else Missing
    case List(_) => Missing
  }

  /** JavaScript truthiness of the looked-up value: a non-empty string. */
  predicate Truthy(l: Lookup) {
    l.Found? && l.text != ""
  }

  /** `readings.length > 0`: an array with at least one element. A record has
      no `length` property, and `undefined > 0` is false. */
  predicate HasElements(readings: Json) {
    readings.List? && |readings.items| > 0
  }

  /** The guard of the reading paragraph:
      `calculatedZodiacSign && readings.length > 0 && readings[0][calculatedZodiacSign]`.
      The reading shows exactly when the sign is non-empty, the readings are an
      array with a first element, and that element is a record holding a
      non-empty text for the sign. */
  function ShowsReading(sign: string, readings: Json): (shown: bool)
    ensures shown <==>
      && sign != ""
      && readings.List? && |readings.items| > 0
      && readings.items[0].Record?
      && sign in readings.items[0].texts
      && readings.items[0].texts[sign] != ""
  {
    sign != "" && HasElements(readings) && Truthy(Property(readings.items[0], sign))
  }

  /** The text of the reading paragraph, `readings[0][calculatedZodiacSign]`. */
  function ReadingText(sign: string, readings: Json): (text: string)
    requires ShowsReading(sign, readings)
    ensures text != ""
    ensures Property(readings.items[0], sign) == Found(text)
  {
    readings.items[0].texts[sign]
  }

  /** With the readings `[{Leo: "text"}]`, the sign Leo shows "text" and the sign
      Virgo shows nothing. */
  lemma LeoShownVirgoNot()
    ensures ShowsReading("Leo", List([Record(map["Leo" := "text"])]))
    ensures ReadingText("Leo", List([Record(map["Leo" := "text"])])) == "text"
    ensures !ShowsReading("Virgo", List([Record(map["Leo" := "text"])]))
  {
  }

  /** Before any sign is computed nothing is shown, whatever was fetched. */
  lemma NoSignNoReading(readings: Json)
    ensures !ShowsReading("", readings)
  {
  }
}

=== FILE: stores.dfy ===
/**
 The two places that store the readings. The mount effect stores the body of
 `GET /readings` as it comes; the Check handler fetches the same endpoint and
 stores `[data]`, one array deeper. The reading paragraph looks up
 `readings[0][sign]`, so an array body can only show a reading after mounting,
 and a record body only after Check.
 */
module ReadingsStores {
  import opened Readings
  import opened Workflow

  /** After mounting, the reading for a sign shows exactly when the body is an
      array whose first element is a record with a non-empty text for the
      sign, and that text is what shows. */
  lemma MountShowsIffArrayBody(s: State, body: Json, sign: string)
    ensures var readings := Load(s, Fetched(body)).state.readings;
      && (ShowsReading(sign, readings) <==>
            && sign != "" && body.List? && |body.items| > 0 && body.items[0].Record?
            && sign in body.items[0].texts && body.items[0].texts[sign] != "")
      && (ShowsReading(sign, readings) ==> ReadingText(sign, readings) == body.items[0].texts[sign])
  {
  }

  /** After Check with a fetched body, the reading shows exactly when the body
      itself is a record with a non-empty text for the computed sign, and that
      text is what shows. */
  lemma CheckShowsIffRecordBody(s: State, body: Json, classify: Classifier)
    requires s.dob != ""
    ensures var r := HandleSubscribeClick(s, Fetched(body), classify);
      var sign := classify(s.dob);
      && (ShowsReading(r.state.calculatedZodiacSign, r.state.readings) <==>
            sign != "" && body.Record? && sign in body.texts && body.texts[sign] != "")
      && (ShowsReading(r.state.calculatedZodiacSign, r.state.readings) ==>
            ReadingText(r.state.calculatedZodiacSign, r.state.readings) == body.texts[sign])
  {
  }

  /** Whatever object or array body of strings the endpoint answers, the mount
      store and the Check store never both show a reading for the same sign. */
  lemma MountAndCheckNeverBothShow(s: State, t: State, body: Json, sign: string, classify: Classifier)
    requires t.dob != ""
    ensures !(ShowsReading(sign, Load(s, Fetched(body)).state.readings)
              && ShowsReading(sign, HandleSubscribeClick(t, Fetched(body), classify).state.readings))
  {
    MountShowsIffArrayBody(s, body, sign);
  }

  /** The answer `[{"Leo": "text"}]` shows "text" after mounting and nothing
      after Check for a Leo date. */
  lemma ArrayBodyShowsOnlyAfterMount(s: State, t: State, classify: Classifier)
    requires t.dob != "" && classify(t.dob) == "Leo"
    ensures var body := List([Record(map["Leo" := "text"])]);
      && ShowsReading("Leo", Load(s, Fetched(body)).state.readings)
      && ReadingText("Leo", Load(s, Fetched(body)).state.readings) == "text"
      && !ShowsReading("Leo", HandleSubscribeClick(t, Fetched(body), classify).state.readings)
  {
    LeoShownVirgoNot();
  }

  /** The answer `{"Leo": "text"}` shows nothing after mounting and "text" after
      Check for a Leo date. */
  lemma RecordBodyShowsOnlyAfterCheck(s: State, t: State, classify: Classifier)
    requires t.dob != "" && classify(t.dob) == "Leo"
    ensures var body := Record(map["Leo" := "text"]);
      var r := HandleSubscribeClick(t, Fetched(body), classify);
      && !ShowsReading("Leo", Load(s, Fetched(body)).state.readings)
      && ShowsReading(r.state.calculatedZodiacSign, r.state.readings)
      && ReadingText(r.state.calculatedZodiacSign, r.state.readings) == "text"
  {
    LeoShownVirgoNot();
  }
}

=== FILE: strings.dfy ===
/**
 The string helpers of the form: JavaScript's whitespace class, ASCII case mapping,
 `String.prototype.trim`, and the name capitalisation applied before a subscriber
 is registered.
 */
module Strings {

  /** A character of JavaScript's `\s` class (WhiteSpace and LineTerminator code
      points). `String.prototype.trim` strips exactly the same set. */
  predicate IsWhitespace(c: char) {
    || ('\t' <= c <= '\r')
    || c == ' '
    || ('\U{00A0}' <= c && IsWideWhitespace(c))
  }

  /** The whitespace code points above the ASCII range: no-break space, Ogham
      space mark, the en quad to hair space block, the line and paragraph
      separators, the narrow no-break and medium mathematical spaces, the
      ideographic space and the byte order mark. */
  predicate IsWideWhitespace(c: char) {
    || c == '\U{00A0}' || c == '\U{1680}'
    || ('\U{2000}' <= c <= '\U{200A}')
    || c == '\U{2028}' || c == '\U{2029}' || c == '\U{202F}' || c == '\U{205F}'
    || c == '\U{3000}' || c == '\U{FEFF}'
  }

  predicate IsUpper(c: char) { 'A' <= c <= 'Z' }

  predicate IsLower(c: char) { 'a' <= c <= 'z' }

  /** `toLowerCase` on one character, restricted to ASCII letters. */
  function ToLower(c: char): (l: char)
    ensures !IsUpper(l)
    ensures IsWhitespace(l) == IsWhitespace(c)
    ensures IsUpper(c) ==> IsLower(l) && ToUpper(l) == c
    ensures !IsUpper(c) ==> l == c
  {
    if IsUpper(c) then (c as int + 32) as char else c
  }

  /** `toUpperCase` on one character, restricted to ASCII letters. */
  function ToUpper(c: char): (u: char)
    ensures !IsLower(u)
    ensures IsWhitespace(u) == IsWhitespace(c)
    ensures IsLower(c) ==> IsUpper(u) && u as int + 32 == c as int
    ensures !IsLower(c) ==> u == c
  {
    if IsLower(c) then (c as int - 32) as char else c
  }

  /** Lowering an upper-cased small letter gives the letter back. */
  lemma LowerUndoesUpper(c: char)
    ensures IsLower(c) ==> ToLower(ToUpper(c)) == c
  {
  }

  /** `str.toLowerCase()`. */
  function Lower(s: string): (r: string)
    ensures |r| == |s|
    ensures forall i {:trigger r[i]} :: 0 <= i < |s| ==> r[i] == ToLower(s[i])
  {
    seq(|s|, i requires 0 <= i < |s| => ToLower(s[i]))
  }

  /** Position `i` of `t` holds a non-whitespace character that follows a
      whitespace one; for `i == 0`, `afterSpace` says what came before `t`. */
  predicate BeginsWord(t: string, i: int, afterSpace: bool)
    requires 0 <= i < |t|
  {
    !IsWhitespace(t[i]) && (if i == 0 then afterSpace else IsWhitespace(t[i - 1]))
  }

  /** Position `i` of `s` is where the pattern `(?:^|\s)\S` puts its `\S`: a
      non-whitespace character at the start or right after a whitespace one. */
  predicate StartsWord(s: string, i: int)
    requires 0 <= i < |s|
  {
    BeginsWord(s, i, true)
  }

  /** The left-to-right scan that `replace(/(?:^|\s)\S/g, toUpperCase)` performs:
      `afterSpace` tells whether the previous character was whitespace, or
      (for the first call) that the scan stands at the start of the string.
      Upper-casing the matched whitespace character leaves it as it is. */
  function UpperWordStarts(t: string, afterSpace: bool): (r: string)
    ensures |r| == |t|
    ensures forall i {:trigger r[i]} :: 0 <= i < |t| ==>
      r[i] == (if BeginsWord(t, i, afterSpace) then ToUpper(t[i]) else t[i])
  {
    if |t| == 0 then []
    else
      var head := if afterSpace && !IsWhitespace(t[0]) then ToUpper(t[0]) else t[0];
      var rest := UpperWordStarts(t[1..], IsWhitespace(t[0]));
      assert forall i :: 1 <= i < |t| ==>
        ([head] + rest)[i] == rest[i - 1] && BeginsWord(t[1..], i - 1, IsWhitespace(t[0])) == BeginsWord(t, i, afterSpace);
      [head] + rest
  }

  /** `capitalize(str)`: lower-case everything, then upper-case the first
      character of every whitespace-delimited word. */
  function Capitalize(s: string): (r: string)
    ensures |r| == |s|
    ensures forall i {:trigger r[i]} :: 0 <= i < |s| ==> IsWhitespace(r[i]) == IsWhitespace(s[i])
    ensures forall i {:trigger r[i]} :: 0 <= i < |s| ==>
      r[i] == (if StartsWord(s, i) then ToUpper(ToLower(s[i])) else ToLower(s[i]))
  {
    var l := Lower(s);
    var r := UpperWordStarts(l, true);
    forall i | 0 <= i < |s|
      ensures IsWhitespace(r[i]) == IsWhitespace(s[i])
    {
      assert IsWhitespace(l[i]) == IsWhitespace(s[i]);
      assert r[i] == l[i] || r[i] == ToUpper(l[i]);
    }
    r
  }

  /** The first half of `name.trim()`: drops the leading whitespace and nothing else. */
  function TrimStart(s: string): (r: string)
    ensures |r| <= |s| && r == s[|s| - |r|..]
    ensures forall i :: 0 <= i < |s| - |r| ==> IsWhitespace(s[i])
    ensures |r| > 0 ==> !IsWhitespace(r[0])
  {
    if |s| > 0 && IsWhitespace(s[0]) then TrimStart(s[1..]) else s
  }

  /** The second half of `name.trim()`: drops the trailing whitespace and nothing else. */
  function TrimEnd(s: string): (r: string)
    ensures |r| <= |s| && r == s[..|r|]
    ensures forall i :: |r| <= i < |s| ==> IsWhitespace(s[i])
    ensures |r| > 0 ==> !IsWhitespace(r[|r| - 1])
  {
    if |s| > 0 && IsWhitespace(s[|s| - 1]) then TrimEnd(s[..|s| - 1]) else s
  }

  /** `r` is the slice of `s` starting at `lo`, with only whitespace before and after it. */
  predicate SliceAmidWhitespace(s: string, r: string, lo: int) {
    && 0 <= lo <= |s| - |r| && r == s[lo..lo + |r|]
    && (forall i :: 0 <= i < lo ==> IsWhitespace(s[i]))
    && (forall i :: lo + |r| <= i < |s| ==> IsWhitespace(s[i]))
  }

  /** `str.trim()`: the slice of `s` that neither starts nor ends with
      whitespace, with only whitespace around it. */
  function Trim(s: string): (r: string)
    ensures exists lo :: SliceAmidWhitespace(s, r, lo)
    ensures |r| > 0 ==> !IsWhitespace(r[0]) && !IsWhitespace(r[|r| - 1])
  {
    SliceOfSuffix(s, TrimStart(s), TrimEnd(TrimStart(s)));
    TrimEnd(TrimStart(s))
  }

  /** Dropping a whitespace prefix and then a whitespace suffix leaves a slice
      with only whitespace around it. */
  lemma SliceOfSuffix(s: string, t: string, r: string)
    requires |t| <= |s| && t == s[|s| - |t|..]
    requires forall i :: 0 <= i < |s| - |t| ==> IsWhitespace(s[i])
    requires |r| <= |t| && r == t[..|r|]
    requires forall i :: |r| <= i < |t| ==> IsWhitespace(t[i])
    ensures SliceAmidWhitespace(s, r, |s| - |t|)
  {
    var lo := |s| - |t|;
    forall j | 0 <= j < |r|
      ensures r[j] == s[lo + j]
    {
      assert r[j] == t[j];
    }
    assert r == s[lo..lo + |r|];
    forall i | lo + |r| <= i < |s|
      ensures IsWhitespace(s[i])
    {
      assert s[i] == t[i - lo];
    }
  }

  /** `name.trim() === ''`. */
  predicate IsBlank(s: string) {
    Trim(s) == ""
  }

  /** A name is blank exactly when every character of it is whitespace. */
  lemma BlankIffAllWhitespace(s: string)
    ensures IsBlank(s) <==> forall i :: 0 <= i < |s| ==> IsWhitespace(s[i])
  {
    var r := Trim(s);
    var lo :| SliceAmidWhitespace(s, r, lo);
    if |r| > 0 {
      assert s[lo] == r[0];
    }
  }

  /** Capitalising twice changes nothing more than capitalising once. */
  lemma CapitalizeIdempotent(s: string)
    ensures Capitalize(Capitalize(s)) == Capitalize(s)
  {
    var c := Capitalize(s);
    var cc := Capitalize(c);
    forall i | 0 <= i < |s|
      ensures cc[i] == c[i]
    {
      assert StartsWord(c, i) == StartsWord(s, i);
    }
  }

  /** Outside word starts every character comes out without an upper-case
      letter; at a word start no lower-case letter is left. */
  lemma CapitalizeCase(s: string)
    ensures forall i :: 0 <= i < |s| && !StartsWord(s, i) ==> !IsUpper(Capitalize(s)[i])
    ensures forall i :: 0 <= i < |s| && StartsWord(s, i) ==> !IsLower(Capitalize(s)[i])
  {
  }

  /** The name of the registration example: `"jane doe"` is sent as `"Jane Doe"`. */
  lemma CapitalizeJaneDoe()
    ensures Capitalize("jane doe") == "Jane Doe"
  {
    var s := "jane doe";
    var r := Capitalize(s);
    assert StartsWord(s, 0) && StartsWord(s, 5);
    assert r[0] == 'J' && r[5] == 'D';
    assert r[1] == 'a' && r[2] == 'n' && r[3] == 'e' && r[4] == ' ';
    assert r[6] == 'o' && r[7] == 'e';
  }
}

=== FILE: workflow.dfy ===
/**
 The subscription workflow of the page, as a state machine. The state is the
 record of the page's ten state variables; every handler is one atomic
 transition that takes the network's replies as arguments and returns the new
 state, the network calls it made (each with the reply it got) and the alerts
 it raised.
 */
module Workflow {
  import opened Strings
  import opened Email
  import opened Readings

  datatype State = State(
    readings: Json,
    dob: string,
    isSubscribeButtonEnabled: bool,
    showSubscribeForm: bool,
    calculatedZodiacSign: string,
    name: string,
    email: string,
    loading: bool,
    existingUser: bool,
    subscriptionSuccess: bool)

  /** The state of a freshly mounted page. */
  function Initial(): State {
    State(List([]), "", false, false, "", "", "", true, false, false)
  }

  /** The reply to `GET /readings`: a parsed body, or a failed request or parse. */
  datatype FetchReply = Fetched(body: Json) | FetchFailed

  /** The reply to `GET /checkUser`: the parsed body's `exists` is truthy, or
      it is falsy (missing included), or the request or the parse failed. The
      status is never read, so an error reply with a JSON body lacking a truthy
      `exists` is `NotExists` too. */
  datatype CheckReply = Exists | NotExists | CheckFailed

  /** The reply to `POST /subscribeNewsletter`: an ok status with a readable
      body, a non-ok status, or a failed request or unreadable body. */
  datatype PostReply = Accepted | Rejected | Unreachable

  /** The JSON body of the registration request. */
  datatype Subscriber = Subscriber(name: string, email: string, zodiacSign: string)

  /** One network call as issued, together with the reply it received. */
  datatype Call =
    | GetReadings(fetched: FetchReply)
    | CheckUser(address: string, answer: CheckReply)
    | SubscribeNewsletter(payload: Subscriber, outcome: PostReply)

  /** The `alert` messages of the handlers. */
  datatype Alert = InvalidDob | MissingName | InvalidEmail

  datatype Reaction = Reaction(state: State, calls: seq<Call>, alerts: seq<Alert>)

  /** `calculateZodiacSign`, whose table is not part of this model. */
  type Classifier = string -> string

  /** A transition that changes nothing and talks to nobody. */
  function Quiet(s: State): (r: Reaction)
    ensures r.state == s && r.calls == [] && r.alerts == []
  {
    Reaction(s, [], [])
  }

  /** `validateDob(dob)`. */
  predicate ValidateDob(dob: string) {
    dob != ""
  }

  /** The mount effect: one `GET /readings`; a body is stored as it came and ends
      the loading phase, a failure leaves the page loading. */
  function Load(s: State, reply: FetchReply): (r: Reaction)
    ensures r.calls == [GetReadings(reply)] && r.alerts == []
    ensures r.state.readings == (if reply.Fetched? then reply.body else s.readings)
    ensures r.state.loading <==> s.loading && reply.FetchFailed?
    ensures r.state.(readings := s.readings, loading := s.loading) == s
  {
    match reply
    case Fetched(body) => Reaction(s.(readings := body, loading := false), [GetReadings(reply)], [])
    case FetchFailed => Reaction(s, [GetReadings(reply)], [])
  }

  /** The date field's change handler: stores the value and enables Check
      exactly when the new value passes `validateDob`. */
  function EditDate(s: State, value: string): (r: Reaction)
    ensures r.state.dob == value
    ensures r.state.isSubscribeButtonEnabled <==> value != ""
    ensures r.state.(dob := s.dob, isSubscribeButtonEnabled := s.isSubscribeButtonEnabled) == s
    ensures r.calls == [] && r.alerts == []
  {
    Quiet(s.(dob := value, isSubscribeButtonEnabled := ValidateDob(value)))
  }

  /** The Check button fires its handler only while it is enabled and the
      readings have loaded. */
  predicate CheckEnabled(s: State) {
    s.isSubscribeButtonEnabled && !s.loading
  }

  /** `handleSubscribeClick`: with an empty date it alerts and changes nothing;
      otherwise it computes the sign, re-fetches the readings and stores the
      body wrapped in a one-element array (`[data]`, one level deeper than the
      mount effect stores it, see `ReadingsStores`), and opens the form whether
      or not the re-fetch succeeded. */
  function HandleSubscribeClick(s: State, reply: FetchReply, classify: Classifier): (r: Reaction)
    ensures s.dob == "" ==> r.state == s && r.calls == [] && r.alerts == [InvalidDob]
    ensures s.dob != "" ==>
      && r.state.calculatedZodiacSign == classify(s.dob)
      && r.state.showSubscribeForm
      && r.state.readings == (if reply.Fetched? then List([reply.body]) else s.readings)
      && r.calls == [GetReadings(reply)]
      && r.alerts == []
    ensures r.state.(calculatedZodiacSign := s.calculatedZodiacSign, readings := s.readings,
                     showSubscribeForm := s.showSubscribeForm) == s
  {
    if !ValidateDob(s.dob) then Reaction(s, [], [InvalidDob])
    else
      var sign := classify(s.dob);
      var readings := if reply.Fetched? then List([reply.body]) else s.readings;
      Reaction(s.(calculatedZodiacSign := sign, readings := readings, showSubscribeForm := true),
               [GetReadings(reply)], [])
  }

  /** The Check button's click handler. */
  function PressCheck(s: State, reply: FetchReply, classify: Classifier): (r: Reaction)
    ensures !CheckEnabled(s) ==> r.state == s && r.calls == [] && r.alerts == []
    ensures CheckEnabled(s) ==> r == HandleSubscribeClick(s, reply, classify)
    ensures r.calls != [] ==> CheckEnabled(s) && s.dob != ""
  {
    if CheckEnabled(s) then HandleSubscribeClick(s, reply, classify) else Quiet(s)
  }

  /** The name field's change handler. */
  function EditName(s: State, value: string): (r: Reaction)
    ensures r.state.name == value && r.state.(name := s.name) == s
    ensures r.calls == [] && r.alerts == []
  {
    Quiet(s.(name := value))
  }

  /** `handleEmailChange`: an earlier duplicate report is withdrawn, together
      with any success message; without one nothing changes. */
  function HandleEmailChange(s: State): (r: Reaction)
    ensures s.existingUser ==> !r.state.existingUser && !r.state.subscriptionSuccess
    ensures !s.existingUser ==> r.state == s
    ensures r.state.(existingUser := s.existingUser, subscriptionSuccess := s.subscriptionSuccess) == s
    ensures r.calls == [] && r.alerts == []
  {
    if s.existingUser then Quiet(s.(existingUser := false, subscriptionSuccess := false)) else Quiet(s)
  }

  /** The email field's change handler: store the value, then `handleEmailChange`. */
  function EditEmail(s: State, value: string): (r: Reaction)
    ensures r.state.email == value
    ensures s.existingUser ==> !r.state.existingUser && !r.state.subscriptionSuccess
    ensures !s.existingUser ==> r.state == s.(email := value)
    ensures r.state.(email := s.email, existingUser := s.existingUser,
                     subscriptionSuccess := s.subscriptionSuccess) == s
    ensures r.calls == [] && r.alerts == []
  {
    HandleEmailChange(s.(email := value))
  }

  /** Both guards of the subscription form pass. */
  predicate FormValid(s: State) {
    !IsBlank(s.name) && ValidateEmail(s.email)
  }

  /** The registration body `handleSubscribe` sends. */
  function Payload(s: State): Subscriber {
    Subscriber(Capitalize(s.name), s.email, s.calculatedZodiacSign)
  }

  /** Every registration in `calls` comes right after a `checkUser` for the same
      address whose parsed reply had no truthy `exists`, whatever its status. */
  predicate PostsFollowNotFound(calls: seq<Call>) {
    forall i :: 0 <= i < |calls| && calls[i].SubscribeNewsletter? ==>
      0 < i && calls[i - 1] == CheckUser(calls[i].payload.email, NotExists)
  }

  /** Some registration in `calls` was accepted. */
  predicate AcceptedPostIn(calls: seq<Call>) {
    exists i :: 0 <= i < |calls| && calls[i].SubscribeNewsletter? && calls[i].outcome == Accepted
  }

  /** Every `checkUser` in `calls` asks about an address the form accepted. */
  predicate ChecksValidAddresses(calls: seq<Call>) {
    forall i :: 0 <= i < |calls| && calls[i].CheckUser? ==> ValidateEmail(calls[i].address)
  }

  /** The `try` block of `handleSubscribeFormSubmit`, with `handleSubscribe`
      inlined. `checkUser` runs first: a failure changes nothing; an existing
      account is reported and no registration is sent; otherwise the duplicate
      flag is cleared and the registration is posted, and only an accepted
      post turns the success flag on. */
  function CheckThenRegister(s: State, check: CheckReply, post: PostReply): (r: Reaction)
    ensures r.alerts == [] && 1 <= |r.calls| <= 2 && r.calls[0] == CheckUser(s.email, check)
    ensures |r.calls| == 2 <==> check == NotExists
    ensures |r.calls| == 2 ==> r.calls[1] == SubscribeNewsletter(Payload(s), post)
    ensures check == Exists ==> r.state.existingUser && !r.state.subscriptionSuccess
    ensures check == NotExists ==>
      !r.state.existingUser && (r.state.subscriptionSuccess <==> s.subscriptionSuccess || post == Accepted)
    ensures check == CheckFailed ==> r.state == s
    ensures !s.subscriptionSuccess && r.state.subscriptionSuccess ==> AcceptedPostIn(r.calls)
    ensures r.state.(existingUser := s.existingUser, subscriptionSuccess := s.subscriptionSuccess) == s
  {
    match check
    case CheckFailed => Reaction(s, [CheckUser(s.email, check)], [])
    case Exists =>
      Reaction(s.(existingUser := true, subscriptionSuccess := false), [CheckUser(s.email, check)], [])
    case NotExists =>
      var cleared := s.(existingUser := false);
      var after := if post == Accepted then cleared.(subscriptionSuccess := true) else cleared;
      var calls := [CheckUser(s.email, check), SubscribeNewsletter(Payload(s), post)];
      assert post == Accepted ==> calls[1].SubscribeNewsletter? && calls[1].outcome == Accepted;
      Reaction(after, calls, [])
  }

  /** `handleSubscribeFormSubmit`: the trimmed name is checked before the
      email, and a failed guard alerts without any call; only a form that
      passes both reaches `checkUser`, so every address asked about or
      registered is one the form accepted. */
  function HandleSubscribeFormSubmit(s: State, check: CheckReply, post: PostReply): (r: Reaction)
    ensures IsBlank(s.name) ==> r.state == s && r.calls == [] && r.alerts == [MissingName]
    ensures !IsBlank(s.name) && !ValidateEmail(s.email) ==>
      r.state == s && r.calls == [] && r.alerts == [InvalidEmail]
    ensures FormValid(s) ==> r == CheckThenRegister(s, check, post)
    ensures r.calls != [] ==> FormValid(s)
    ensures PostsFollowNotFound(r.calls) && ChecksValidAddresses(r.calls)
    ensures !s.subscriptionSuccess && r.state.subscriptionSuccess ==> AcceptedPostIn(r.calls)
  {
    if IsBlank(s.name) then Reaction(s, [], [MissingName])
    else if !ValidateEmail(s.email) then Reaction(s, [], [InvalidEmail])
    else CheckThenRegister(s, check, post)
  }

  /** What the user or the page can do; each event carries the replies of the
      calls its handler may make. */
  datatype Event =
    | Loaded(reply: FetchReply)
    | DateEdited(date: string)
    | CheckPressed(readingsReply: FetchReply)
    | NameEdited(newName: string)
    | EmailEdited(newEmail: string)
    | SignUpPressed(check: CheckReply, post: PostReply)

  /** One event. The name, email and Sign up controls exist only while the
      subscription form is shown; before that their events change nothing. */
  function Step(s: State, e: Event, classify: Classifier): (r: Reaction)
    ensures PostsFollowNotFound(r.calls)
    ensures ChecksValidAddresses(r.calls)
    ensures !s.subscriptionSuccess && r.state.subscriptionSuccess ==> AcceptedPostIn(r.calls)
    ensures s.showSubscribeForm ==> r.state.showSubscribeForm
    ensures !s.loading ==> !r.state.loading
    ensures !s.showSubscribeForm && (e.NameEdited? || e.EmailEdited? || e.SignUpPressed?) ==>
      r.state == s && r.calls == [] && r.alerts == []
  {
    match e
    case Loaded(reply) => Load(s, reply)
    case DateEdited(date) => EditDate(s, date)
    case CheckPressed(reply) => PressCheck(s, reply, classify)
    case NameEdited(newName) => if s.showSubscribeForm then EditName(s, newName) else Quiet(s)
    case EmailEdited(newEmail) => if s.showSubscribeForm then EditEmail(s, newEmail) else Quiet(s)
    case SignUpPressed(check, post) =>
      if s.showSubscribeForm then HandleSubscribeFormSubmit(s, check, post) else Quiet(s)
  }

  /** A session: the events in order, with their calls and alerts collected. */
  function Run(s: State, events: seq<Event>, classify: Classifier): Reaction
    decreases |events|
  {
    if |events| == 0 then Quiet(s)
    else
      var first := Step(s, events[0], classify);
      var rest := Run(first.state, events[1..], classify);
      Reaction(rest.state, first.calls + rest.calls, first.alerts + rest.alerts)
  }
}
